=== FILE: README.md ===
# Job-listing pipeline: a Dafny model of its data handling

`web3_jobs_scraping.py` runs four stages in order. Each stage reads the whole output of the stage before it.

1. **Scrape.** It reads the job table of each company page into a flat list of listings.
2. **Keyword filter.** It drops listings whose position mentions a banned word. It keeps those whose department mentions a wanted word. It then removes the `location` field.
3. **Judge.** It asks a language model whether each title fits, decodes the reply into a verdict, and keeps the matches.
4. **Store.** It collects the URLs already in an Airtable table, page by page. It keeps the offers whose link is new, turns each into a record with status `"New"` and the run's timestamp, and writes the records in batches of ten.

This project models the pure data handling of those stages as Dafny functions, methods and lemmas. The browser, the language-model client, the HTTP calls, the clock and the files stay outside it. Their results are parameters:
- the rows of each page;
- the judge's argument string for each listing, plus the JSON parser as a function;
- the store's reply to each page read;
- the HTTP status of each batch write;
- the run's date string.

Modules, one per concern:

- `Results` (`results.dfy`): `Option` and `Result`.
- `Text` (`text.dfy`): Python's `str.strip()`, `str.lower()` and the substring test `in`.
- `Seqs` (`seqs.dfy`): order-preserving selection, subsequence and flattening, with their lemmas.
- `Listings` (`listings.dfy`): the `Listing` record and JSON values with Python truthiness.
- `Extract` (`extract.dfy`): row parsing and the per-page and per-source loops.
- `RuleFilter` (`rule_filter.dfy`): the banned-word and wanted-word passes and the location removal.
- `Classifier` (`classifier.dfy`): the two-tier verdict decoder and the match selection.
- `Sync` (`sync.dfy`): existing-URL pagination, dedup, record building, batching and batch writes.
- `Pipeline` (`pipeline.dfy`): the combined entry point and end-to-end guarantees.

A listing is a record with fixed fields, not a dictionary. Every stage reads what the previous stage wrote, so the keys are always present. `location` becomes `None` when the filter pops it. `link` is `None` when the anchor had no `href`. `gpt` holds the judge's decoded value once the judge stage has run.

The misspelled names at `web3_jobs_scraping.py:163`, `:168` and `:170` are modelled as the functions and list evidently meant: `contiene_palabra_baneada`, `filtered` and `contains_dept_word`. The code as written is modelled separately; see Findings.

Where the documented intent of the pipeline and the code differ, the model follows the code:
- **Links.** Extraction does not drop rows whose anchor has no `href`. Such a listing carries a null link. The store stage never treats a null or empty link as already stored, so such an offer is written again on every run (`Sync.LinklessOfferIsAlwaysNew`). Re-running adds nothing if every offer has a non-empty link and every batch of the first run was accepted (`Sync.RerunAddsNothing`). Offers in rejected batches come back on the next run (`Sync.RerunRetriesRejected`).
- **Repeated links.** Dedup compares each offer only with the store's existing URLs, not with the other offers of the same run. An offer scraped twice in one run is kept twice (`Sync.NewOffers` keeps every occurrence), so the store receives two records with the same URL.
- **Judge failures.** Only decoding errors are caught. A failing call to the judge is not turned into a false verdict; it ends the stage. The model takes the replies as given.
- **Filter fields.** The inclusion pass reads only `department`.

Two defects in the code are modelled as written and then as evidently intended, and the rest of the pipeline uses the intended version (see Findings):
- the keyword filter's misspelled names;
- the judge decoder's acceptance of a `match` value that is not a boolean.

## Model

| member | source | states |
|---|---|---|
| Text.Strip | web3_jobs_scraping.py:89-96 | the stripped text is a contiguous piece of the input, no longer than it, and neither starts nor ends with a whitespace character |
| Text.StripRemovesOnlySpace | web3_jobs_scraping.py:89-96 | everything strip removes, before and after the piece it keeps, is whitespace |
| Text.StripIdempotent | web3_jobs_scraping.py:89-96 | stripping an already stripped text changes nothing |
| Text.LowerIdempotent | web3_jobs_scraping.py:137-139 | lowering an already lowered text changes nothing |
| Text.Find | web3_jobs_scraping.py:139 | the left-to-right scan reports a hit exactly when the word occurs somewhere in the text, the empty word included |
| Extract.Department | web3_jobs_scraping.py:90-95 | the department is the stripped text of the first span that differs from the position and carries no "Verified"; it is empty when no span qualifies, never contains "Verified", and never equals a non-empty position |
| Extract.ScrapeRows | web3_jobs_scraping.py:79-107 | the row loop yields, in row order, one listing per row with at least two cells and an anchor; every listing has the page's company, a location, and no verdict yet |
| Extract.RowsToListingsMembers | web3_jobs_scraping.py:81-105 | a listing is produced exactly when some row parses to it |
| Extract.RowsToListingsOrigin | web3_jobs_scraping.py:82-105 | every listing comes from a row with at least two cells and an anchor, and is built from that row's spans, href and location text alone; short rows yield nothing |
| Extract.FailedSourceIsSkipped | web3_jobs_scraping.py:51-111 | a page that fails is skipped without changing what the pages before and after it yield |
| RuleFilter.ScanWords | web3_jobs_scraping.py:135-154 | the word scan returns true exactly when some word, lowered, is a substring of the lowered text |
| RuleFilter.MentionsAnyIgnoresCase | web3_jobs_scraping.py:137-139 | the keyword test gives the same answer on a text and on its lowered form |
| RuleFilter.MentionsAnyIgnoresWordCase | web3_jobs_scraping.py:151-152 | lowering the word list first does not change the keyword test |
| RuleFilter.FilterKeyWords | web3_jobs_scraping.py:163-176 | every survivor has no location, a position with no banned word and a department with a wanted word, and there are no more survivors than inputs |
| RuleFilter.FilterIsSurvivors | web3_jobs_scraping.py:163-176 | the two passes and the location removal equal a single pass that keeps each listing passing both tests, with its location removed |
| RuleFilter.SurvivorsMembers | web3_jobs_scraping.py:163-176 | a record leaves the stage exactly when it is an input listing that passes both tests, with its location removed and every other field unchanged |
| RuleFilter.SurvivorsInOrder | web3_jobs_scraping.py:163-176 | the stage's output is an order-preserving subsequence of the input with locations removed |
| RuleFilter.FilterIdempotent | web3_jobs_scraping.py:163-176 | running the stage on its own output returns that output unchanged |
| RuleFilter.PassOrderIrrelevant | web3_jobs_scraping.py:163-171 | running the department pass before the position pass selects the same listings |
| RuleFilter.AsWrittenLosesListing | web3_jobs_scraping.py:163-170 | on one concrete listing the intended stage keeps it, while the stage as written raises a NameError |
| Classifier.DecodeVerdict | web3_jobs_scraping.py:235-244 | the decoder as written: a reply that parses to an object with a `match` key decodes to that value, whatever its JSON type; otherwise the verdict is the boolean "the lowered reply contains `true`"; a missing reply decodes to false |
| Classifier.NeitherTokenIsFalse | web3_jobs_scraping.py:238-244 | a reply without a structured `match` that contains neither "true" nor "false" decodes to false |
| Classifier.TrueTokenWins | web3_jobs_scraping.py:240-243 | in the fallback, a reply containing both tokens decodes to true, because "true" is checked first |
| Classifier.FallbackIgnoresCase | web3_jobs_scraping.py:240-242 | the token fallback gives the same verdict on a reply and on its lowered form |
| Classifier.WellFormedReply | web3_jobs_scraping.py:236-237 | a reply parsing to `{"match": b}` decodes to `b` |
| Classifier.NonBooleanMatchIsKept | web3_jobs_scraping.py:236-237 | as written, a reply whose `match` is a truthy non-boolean and which never says "true" still keeps its listing, stored with that raw value; the intended stage drops it |
| Classifier.NumericMatchIsKept | web3_jobs_scraping.py:236-237 | the reply `{"match": 1}` contains neither "true" nor "false", yet the stage as written keeps its listing and the intended stage does not |
| Classifier.Verdict | web3_jobs_scraping.py:223-244 | the intended verdict: true only when the reply is present and either carries a structured boolean true or, lowered, contains "true"; a structured boolean decides the verdict and is never overridden by the tokens |
| Classifier.VerdictAgreesWithDecoder | web3_jobs_scraping.py:235-244 | the intended verdict equals the truthiness of the decoder as written on every reply whose `match` is absent or boolean; on a non-boolean `match` the written decoder returns the raw value while the intended one falls back to the "true" token |
| Classifier.Annotate | web3_jobs_scraping.py:250-256 | annotation changes only the `GPT` field of each listing, always to a boolean, and to true only when that listing's own reply says true |
| Classifier.GptFilter | web3_jobs_scraping.py:250-257 | the stage keeps at most as many listings as it is given, and each one kept has a truthy stored verdict |
| Classifier.GptFilterMembers | web3_jobs_scraping.py:251-257 | a listing leaves the stage exactly when it is an input listing whose own reply has a true verdict, stored with `GPT` true. The k-th call's reply belongs to the k-th listing |
| Classifier.GptFilterInOrder | web3_jobs_scraping.py:251-257 | the stage's output keeps input order |
| Classifier.AllRejected | web3_jobs_scraping.py:257 | when no reply has a true verdict, nothing goes on to the store |
| Sync.GetExistingUrls | web3_jobs_scraping.py:297-316 | reading stops at the first page without a cursor. Each read after the first sends the previous page's cursor. The result is the union of the non-empty URLs of the pages read. An error status ends the read with `ReadFailed`. Running out of replies ends it with `CursorNeverEnds`, and only when no page read answered with an error status |
| Sync.NoStopBefore | web3_jobs_scraping.py:300-316 | a read that ended on an error status, or ran out of replies while pages still pointed further, leaves no page at which reading could have finished successfully |
| Sync.UrlsUpToMembers | web3_jobs_scraping.py:308-311 | a URL is collected exactly when some record of a page read carries it, non-empty |
| Sync.NoEmptyUrl | web3_jobs_scraping.py:309-311 | records lacking a URL, or with an empty one, contribute nothing to the collected set |
| Sync.NewOffers | web3_jobs_scraping.py:330 | every kept offer is an input offer with no link or a link not already stored, and every such input offer is kept; the kept offers keep their input order, and every occurrence of a new offer is kept, so repeats within one run are not collapsed |
| Sync.BuildRecords | web3_jobs_scraping.py:334-347 | one record per offer, in order. Each has status "New", the run's single date, the offer's link as URL and the offer's department as Location |
| Sync.Chunk | web3_jobs_scraping.py:349-351 | the batches concatenate to the records. There are ceil(n/10) of them. Each holds 1 to 10 records, and all but the last hold exactly 10 |
| Sync.ChunkAt | web3_jobs_scraping.py:350-351 | the k-th batch is the slice starting at 10k, cut short at the end, as the stepped range produces it |
| Sync.WriteBatches | web3_jobs_scraping.py:350-358 | every batch is sent whatever happened to earlier ones. Each log line is numbered from 1 and marked failed exactly when the status is 400 or more. The store receives the records of exactly the accepted batches |
| Sync.AllAcceptedStoresRecords | web3_jobs_scraping.py:350-358 | when every batch write is accepted, the store receives all records, in order |
| Sync.PlanSkipsExisting | web3_jobs_scraping.py:330-347 | no prepared record carries a URL that is already in the store |
| Sync.AirtableAppend | web3_jobs_scraping.py:318-358 | the stage succeeds exactly when the existing-URL read succeeds: every page up to the first without a cursor answers below 400. A failed read aborts with nothing planned or written. Otherwise the existing set is the union of the pages up to the first without a cursor and holds no empty URL. One log line per batch, marked failed exactly when that batch's write answered 400 or more. The store receives the records of the accepted batches; nothing written has a stored URL, and with every batch accepted all prepared records are written |
| Sync.RerunRetriesRejected | web3_jobs_scraping.py:297-358 | when every offer has a non-empty link, an offer found new by a second run against the store as the first run left it (its accepted records added) was new the first time, and its record was not accepted |
| Sync.RerunAddsNothing | web3_jobs_scraping.py:297-358 | when every offer has a non-empty link and every batch of the first run was accepted, a second run against the store as that run left it finds no new offers |
| Sync.LinklessOfferIsAlwaysNew | web3_jobs_scraping.py:309-330 | an offer with a null or empty link is new on the first run and again on the next one, whatever the first run wrote |
| Pipeline.CandidateOrigin | web3_jobs_scraping.py:163-257 | every listing reaching the store stage is a scraped listing that passed both keyword passes. Its location is gone and its stored verdict is truthy |
| Pipeline.PlannedRecordOrigin | web3_jobs_scraping.py:364-368 | every record prepared for the store has status "New" and the run's date, and carries the fields of a scraped listing that passed both keyword passes and whose link was not yet stored |
| Pipeline.Run | web3_jobs_scraping.py:364-368 | the combined run succeeds exactly when the store's existing-URL read succeeds. The existing set is the union of the URLs of the pages read, up to the first without a cursor. It then prepares the records of the judged candidates, and the store receives those of the accepted batches. Every record written comes from a scraped listing that passed both keyword passes and whose link was not already stored |

## Findings

| source | as written | input that shows it | evidently intended | confidence | as-written member | corrected member |
|---|---|---|---|---|---|---|
| web3_jobs_scraping.py:163-170 | The filter stage calls `contains_banned_word` and iterates `filtrados`, and neither is defined. It also calls `contiene_palabra_dept`, which is undefined too. The stage raises `NameError` on every input | one listing, no banned words, wanted words `[""]` | call `contiene_palabra_baneada`, iterate `filtered`, call `contains_dept_word` | high (not executed) | RuleFilter.AsWrittenLosesListing | RuleFilter.FilterKeyWords |
| web3_jobs_scraping.py:236-257 | The decoder returns `match_obj["match"]` whatever its JSON type, and the stage keeps a listing whose stored value is truthy. A non-boolean `match` such as `1` or `"false"` keeps the listing although the call's schema declares `match` a boolean and the reply never says "true" | the reply `{"match": 1}` | take the structured value only when it is a boolean; otherwise fall back to the "true"/"false" tokens, so a reply that does not say true is never kept | medium (not executed) | Classifier.NumericMatchIsKept | Classifier.Verdict |

## Left out

- Browser automation: Selenium, page waits, CSS selectors and the company-name lookup with its `"UNKNOWN"` fallback. A page is given as its company name and its rows, or as a failure.
- A page failure after some rows were already appended would keep those rows. The model treats a page as wholly read or wholly failed.
- `Text.Lower` lowers ASCII letters only. Python's `str.lower()` also lowers other letters, so the case-insensitivity results cover ASCII case only.
- Span texts are given after Selenium's text extraction. Rows hold strings, not DOM elements.
- The language-model call: prompt, model choice, network errors. The decoder as written also accepts a non-boolean `match`; the pipeline uses the intended boolean-only decoder instead (see Findings). The argument string for each listing is an input, in listing order. A failing call raises out of the stage in the code and is not modelled.
- `json.loads` is a parameter, a function from text to a parsed value or a failure. JSON numbers are integers; floating-point values are not modelled.
- Airtable HTTP: URLs, headers, environment variables. Page reads are a finite sequence of replies. A store that keeps returning a cursor past the replies given ends in `CursorNeverEnds`. The real loop would keep reading.
- The store's `URL` field is modelled as a string or absent. A non-string value is not modelled.
- Sync.WriteBatches: a batch `requests.post` that raises, such as a connection error (no timeout is set), propagates out of the stage and stops the remaining batches. This is not modelled; "every batch is sent" holds for failures reported by an HTTP status only.
- Sync.GetExistingUrls: a `requests.get` that raises, or a `resp.json()` that fails on a page read, also ends the stage. This is not modelled; only error statuses are.
- `time.sleep` rate limiting, `datetime.now()` (the date string is a parameter), logging, `print`, and reading and writing the JSON files between stages.
- Each stage's output goes into the next stage unchanged. Files edited between stages are not modelled.

=== FILE: classifier.dfy ===
/**
 The judge stage: decoding the judge's function-call arguments into a verdict
 and keeping only the listings with a true verdict. The call to the judge is
 outside the model; its argument string for each listing is an input, and so
 is the JSON parser, as a function from text to a parsed value or a failure.
 */
module Classifier {
  import opened Results
  import opened Text
  import opened Seqs
  import opened Listings

  /** Tier one as written: `json.loads(arguments)["match"]`, which succeeds only on a JSON object with a `match` key. */
  function StructuredMatch(loaded: Option<Json>): Option<Json> {
    match loaded
    case Some(JObj(fields)) => if "match" in fields then Some(fields["match"]) else None
    case _ => None
  }

  /** Tier one as the call's schema declares it: the `match` value only when it is a JSON boolean. */
  function StructuredBool(loaded: Option<Json>): Option<bool> {
    match StructuredMatch(loaded)
    case Some(JBool(b)) => Some(b)
    case _ => None
  }

  /** Tiers two and three: the lowered text is scanned for "true" first, then "false"; anything else is false. */
  function TokenFallback(arguments: Option<string>): bool {
    match arguments
    case None => false
    case Some(a) =>
      if Contains(Lower(a), "true") then true
      else if Contains(Lower(a), "false") then false
      else false
  }

  /**
   The decoder of the judge's reply: the structured `match` value when the
   arguments parse to an object that has one, the token fallback otherwise.
   Missing arguments cannot be parsed and decode to false.
   */
  function DecodeVerdict(arguments: Option<string>, loads: string -> Option<Json>): (v: Json)
    ensures arguments.Some? && StructuredMatch(loads(arguments.value)).Some? ==>
      v == StructuredMatch(loads(arguments.value)).value
    ensures (arguments.None? || StructuredMatch(loads(arguments.value)).None?) ==>
      v.JBool? && (v.b <==> arguments.Some? && Contains(Lower(arguments.value), "true"))
  {
    var loaded := if arguments.Some? then loads(arguments.value) else None;
    match StructuredMatch(loaded)
    case Some(m) => m
    case None => JBool(TokenFallback(arguments))
  }

  /** A reply that is not a JSON object with `match` and mentions neither token decodes to false. */
  lemma NeitherTokenIsFalse(a: string, loads: string -> Option<Json>)
    requires StructuredMatch(loads(a)).None?
    requires !Contains(Lower(a), "true") && !Contains(Lower(a), "false")
    ensures DecodeVerdict(Some(a), loads) == JBool(false)
  {
  }

  /** In the fallback, "true" wins over "false" when a reply mentions both. */
  lemma TrueTokenWins(a: string, loads: string -> Option<Json>)
    requires StructuredMatch(loads(a)).None?
    requires Contains(Lower(a), "true") && Contains(Lower(a), "false")
    ensures DecodeVerdict(Some(a), loads) == JBool(true)
  {
  }

  /** Tokens are found whatever their case in the reply. */
  lemma {:induction false} FallbackIgnoresCase(a: string)
    ensures TokenFallback(Some(Lower(a))) == TokenFallback(Some(a))
  {
    LowerIdempotent(a);
  }

  /** A well-formed reply `{"match": b}` decodes to exactly `b`. */
  lemma WellFormedReply(a: string, loads: string -> Option<Json>, b: bool)
    requires loads(a) == Some(JObj(map["match" := JBool(b)]))
    ensures DecodeVerdict(Some(a), loads) == JBool(b)
  {
  }

  /**
   The decoder as written returns the `match` value whatever its JSON type, so
   a reply whose `match` is a truthy non-boolean is kept although the reply
   never says "true"; the intended stage drops it.
   */
  lemma NonBooleanMatchIsKept(l: Listing, a: string, m: Json, loads: string -> Option<Json>)
    requires loads(a) == Some(JObj(map["match" := m]))
    requires !m.JBool? && Truthy(m) && !Contains(Lower(a), "true")
    ensures GptFilterAsWritten([l], k => Some(a), loads) == [l.(gpt := Some(m))]
    ensures GptFilter([l], k => Some(a), loads) == []
  {
    var replyTo: nat -> Option<string> := k => Some(a);
    assert StructuredMatch(loads(a)) == Some(m);
    assert DecodeVerdict(replyTo(0), loads) == m;
    var raw := seq(1, k requires 0 <= k < 1 => [l][k].(gpt := Some(DecodeVerdict(replyTo(k), loads))));
    assert raw[0] == l.(gpt := Some(m));
    assert raw == [l.(gpt := Some(m))];
    SelectAll(IsMatch, raw);
    var annotated := Annotate([l], replyTo, loads);
    assert annotated[0] == l.(gpt := Some(JBool(false)));
    SelectNone(IsMatch, annotated);
  }

  /** The concrete case `{"match": 1}`: it mentions neither token, yet the stage as written keeps its listing. */
  lemma NumericMatchIsKept(l: Listing, loads: string -> Option<Json>)
    requires loads(NUMERIC_REPLY) == Some(JObj(map["match" := JNum(1)]))
    ensures !Contains(Lower(NUMERIC_REPLY), "true") && !Contains(Lower(NUMERIC_REPLY), "false")
    ensures GptFilterAsWritten([l], k => Some(NUMERIC_REPLY), loads) == [l.(gpt := Some(JNum(1)))]
    ensures GptFilter([l], k => Some(NUMERIC_REPLY), loads) == []
  {
    NumericReplyHasNoToken();
    NonBooleanMatchIsKept(l, NUMERIC_REPLY, JNum(1), loads);
  }

  /** The reply of the counterexample: a structured `match` that is a number. */
  const NUMERIC_REPLY := "{\"match\": 1}"

  /** A text without the letters r and l, in either case, mentions neither token. */
  lemma NoTokenWithoutRL(a: string)
    requires 'r' !in a && 'R' !in a && 'l' !in a && 'L' !in a
    ensures !Contains(Lower(a), "true") && !Contains(Lower(a), "false")
  {
    var t := Lower(a);
    LowerLacks(a, 'r', 'R');
    LowerLacks(a, 'l', 'L');
    assert "true"[1] == 'r' && "false"[2] == 'l';
    LacksPart(t, "true", 1);
    LacksPart(t, "false", 2);
  }

  /** Lowering does not produce a lower-case letter absent from the text in both cases. */
  lemma LowerLacks(a: string, lo: char, up: char)
    requires 'a' <= lo <= 'z' && up as int == lo as int - 32
    requires lo !in a && up !in a
    ensures lo !in Lower(a)
  {
    var t := Lower(a);
    forall k | 0 <= k < |t| ensures t[k] != lo {
      assert a[k] in a;
    }
  }

  /** A needle cannot occur in a text that lacks one of its characters. */
  lemma LacksPart(t: string, needle: string, j: nat)
    requires j < |needle| && needle[j] !in t
    ensures !Contains(t, needle)
  {
    forall i | 0 <= i <= |t| ensures !OccursAt(t, needle, i) {
      if i + |needle| <= |t| {
        assert t[i..i + |needle|][j] == t[i + j];
      }
    }
  }

  /** The counterexample reply mentions neither token. */
  lemma NumericReplyHasNoToken()
    ensures !Contains(Lower(NUMERIC_REPLY), "true") && !Contains(Lower(NUMERIC_REPLY), "false")
  {
    NoTokenWithoutRL(NUMERIC_REPLY);
  }

  /**
   The verdict the decoder evidently intends: a structured `match` counts only
   when it is a JSON boolean, as the call's schema declares; any other reply,
   parsed or not, goes to the token fallback. A listing is kept only when its
   reply says true, and an explicit structured false is never overridden.
   */
  function Verdict(arguments: Option<string>, loads: string -> Option<Json>): (v: bool)
    ensures v ==>
      && arguments.Some?
      && (StructuredBool(loads(arguments.value)) == Some(true) || Contains(Lower(arguments.value), "true"))
    ensures arguments.Some? && StructuredBool(loads(arguments.value)) == Some(false) ==> !v
    ensures arguments.Some? && StructuredBool(loads(arguments.value)) == Some(true) ==> v
  {
    match arguments
    case None => false
    case Some(a) =>
      match StructuredBool(loads(a))
      case Some(b) => b
      case None => TokenFallback(arguments)
  }

  /**
   The intended verdict and the decoder as written agree on every reply that
   has no structured `match` or a boolean one; they differ only on a
   non-boolean `match`.
   */
  lemma VerdictAgreesWithDecoder(arguments: Option<string>, loads: string -> Option<Json>)
    ensures (arguments.None? || StructuredMatch(loads(arguments.value)).None?
             || StructuredMatch(loads(arguments.value)).value.JBool?) ==>
      Verdict(arguments, loads) == Truthy(DecodeVerdict(arguments, loads))
    ensures arguments.Some? && StructuredMatch(loads(arguments.value)).Some?
            && !StructuredMatch(loads(arguments.value)).value.JBool? ==>
      && DecodeVerdict(arguments, loads) == StructuredMatch(loads(arguments.value)).value
      && (Verdict(arguments, loads) <==> Contains(Lower(arguments.value), "true"))
  {
  }

  /** Each listing with the verdict of its own reply stored under `GPT`; `replyTo(k)` answers the call for the k-th listing. */
  function Annotate(jobs: seq<Listing>, replyTo: nat -> Option<string>, loads: string -> Option<Json>): (out: seq<Listing>)
    ensures |out| == |jobs|
    ensures forall k :: 0 <= k < |jobs| ==> out[k].(gpt := jobs[k].gpt) == jobs[k] && out[k].gpt.Some? && out[k].gpt.value.JBool?
    ensures forall k :: 0 <= k < |jobs| && IsMatch(out[k]) ==>
      replyTo(k).Some? && (StructuredBool(loads(replyTo(k).value)) == Some(true) || Contains(Lower(replyTo(k).value), "true"))
  {
    seq(|jobs|, k requires 0 <= k < |jobs| => jobs[k].(gpt := Some(JBool(Verdict(replyTo(k), loads)))))
  }

  /** The stage as written: the decoder's raw value is stored, and a listing goes on when that value is truthy. */
  function GptFilterAsWritten(jobs: seq<Listing>, replyTo: nat -> Option<string>, loads: string -> Option<Json>): seq<Listing> {
    Select(IsMatch, seq(|jobs|, k requires 0 <= k < |jobs| => jobs[k].(gpt := Some(DecodeVerdict(replyTo(k), loads)))))
  }

  /** A listing goes on when its stored verdict is truthy. */
  predicate IsMatch(job: Listing) {
    job.gpt.Some? && Truthy(job.gpt.value)
  }

  /** The whole judge stage: annotate every listing in order, then keep the matches. */
  function GptFilter(jobs: seq<Listing>, replyTo: nat -> Option<string>, loads: string -> Option<Json>): (out: seq<Listing>)
    ensures |out| <= |jobs|
    ensures forall j :: j in out ==> IsMatch(j)
  {
    Select(IsMatch, Annotate(jobs, replyTo, loads))
  }

  /** The output is exactly the listings whose reply says true, each with that verdict stored, and nothing else. */
  lemma GptFilterMembers(jobs: seq<Listing>, replyTo: nat -> Option<string>, loads: string -> Option<Json>, j: Listing)
    ensures j in GptFilter(jobs, replyTo, loads) <==>
      exists k :: && 0 <= k < |jobs|
                  && Verdict(replyTo(k), loads)
                  && j == jobs[k].(gpt := Some(JBool(true)))
  {
  }

  /** The output keeps input order. */
  lemma GptFilterInOrder(jobs: seq<Listing>, replyTo: nat -> Option<string>, loads: string -> Option<Json>)
    ensures IsSubseq(GptFilter(jobs, replyTo, loads), Annotate(jobs, replyTo, loads))
  {
    SelectIsSubseq(IsMatch, Annotate(jobs, replyTo, loads));
  }

  /** When every verdict is false, nothing goes on to the store. */
  lemma {:induction false} AllRejected(jobs: seq<Listing>, replyTo: nat -> Option<string>, loads: string -> Option<Json>)
    requires forall k :: 0 <= k < |jobs| ==> !Verdict(replyTo(k), loads)
    ensures GptFilter(jobs, replyTo, loads) == []
  {
    var out := GptFilter(jobs, replyTo, loads);
    if out != [] {
      GptFilterMembers(jobs, replyTo, loads, out[0]);
    }
  }
}

=== FILE: extract.dfy ===
/**
 The scrape stage's data handling: from the rows of each rendered company page
 to a flat list of listings. The browser is abstracted away; a row is the count
 of its cells, the anchor found in its first cell, and its second cell's text.
 */
module Extract {
  import opened Results
  import opened Text
  import opened Seqs
  import opened Listings

  /** The anchor in a row's first cell: the texts of its `<span>` children, in document order, and its `href`. */
  datatype Anchor = Anchor(spans: seq<string>, href: Option<string>)

  /** One table row: its number of `<td>` cells, the anchor of its first cell if any, and its second cell's text. */
  datatype Row = Row(cellCount: nat, anchor: Option<Anchor>, locationText: string)

  /** What becomes of one row. */
  datatype RowOutcome =
    | TooFewCells              // fewer than two cells: skipped without a message
    | RowError                 // no anchor in the first cell: a warning is logged and the row skipped
    | Parsed(listing: Listing)

  /** One company page: rendering or table lookup failed (logged, page skipped), or the page's company name and rows. */
  datatype Source = RenderFailed | Rendered(company: string, rows: seq<Row>)

  /** The provenance badge text that is never taken as a department. */
  const VERIFIED_MARKER := "Verified"

  /** The position is the first span's stripped text, or empty when the anchor has no spans. */
  function Position(spans: seq<string>): string {
    if spans == [] then "" else Strip(spans[0])
  }

  /** A span names the department when its stripped text differs from the position and carries no "Verified" badge. */
  predicate NamesDepartment(span: string, position: string) {
    Strip(span) != position && !Contains(Strip(span), VERIFIED_MARKER)
  }

  /** The stripped text of the first span that names a department, or empty when none does. */
  function Department(spans: seq<string>, position: string): (d: string)
    ensures !Contains(d, VERIFIED_MARKER)
    ensures d == "" || d != position
    ensures (forall k :: 0 <= k < |spans| ==> !NamesDepartment(spans[k], position)) ==> d == ""
    ensures (exists k :: 0 <= k < |spans| && NamesDepartment(spans[k], position)) ==>
      exists k :: && 0 <= k < |spans|
                  && NamesDepartment(spans[k], position)
                  && d == Strip(spans[k])
                  && forall j :: 0 <= j < k ==> !NamesDepartment(spans[j], position)
  {
    var k := FirstWhere(span => NamesDepartment(span, position), spans);
    if k < |spans| then Strip(spans[k]) else ""
  }

  /** The listing a row yields once it has two cells and an anchor. */
  function ListingOf(company: string, a: Anchor, locationText: string): Listing {
    var position := Position(a.spans);
    Listing(company, position, Some(Strip(locationText)), Department(a.spans, position), a.href, None)
  }

  /** Parsing one row; a row error affects only that row. */
  function ParseRow(company: string, row: Row): RowOutcome {
    if row.cellCount < 2 then TooFewCells
    else match row.anchor
      case None => RowError
      case Some(a) => Parsed(ListingOf(company, a, row.locationText))
  }

  /** The listings a page's rows yield, in row order. */
  function RowsToListings(company: string, rows: seq<Row>): seq<Listing> {
    if rows == [] then []
    else match ParseRow(company, rows[0])
      case Parsed(l) => [l] + RowsToListings(company, rows[1..])
      case _ => RowsToListings(company, rows[1..])
  }

  /**
   The per-row loop of one page: every row is tried, rows that are short or
   lack an anchor are skipped, and the others are appended in order.
   */
  method ScrapeRows(company: string, rows: seq<Row>) returns (jobs: seq<Listing>)
    ensures jobs == RowsToListings(company, rows)
    ensures |jobs| <= |rows|
    ensures forall l :: l in jobs ==> l.company == company && l.location.Some? && l.gpt.None?
  {
    jobs := [];
    var i := 0;
    while i < |rows|
      invariant 0 <= i <= |rows|
      invariant |jobs| <= i
      invariant jobs + RowsToListings(company, rows[i..]) == RowsToListings(company, rows)
      invariant forall l :: l in jobs ==> l.company == company && l.location.Some? && l.gpt.None?
    {
      assert rows[i..][1..] == rows[i + 1..];
      match ParseRow(company, rows[i]) {
        case Parsed(l) =>
          jobs := jobs + [l];
        case _ =>
      }
      i := i + 1;
    }
    assert rows[i..] == [];
  }

  /** A listing is produced exactly when some row parses to it. */
  lemma {:induction false} RowsToListingsMembers(company: string, rows: seq<Row>, l: Listing)
    ensures l in RowsToListings(company, rows) <==>
      exists k :: 0 <= k < |rows| && ParseRow(company, rows[k]) == Parsed(l)
  {
    if rows != [] {
      var tail := rows[1..];
      RowsToListingsMembers(company, tail, l);
      if l in RowsToListings(company, rows) && ParseRow(company, rows[0]) != Parsed(l) {
        var k :| 0 <= k < |tail| && ParseRow(company, tail[k]) == Parsed(l);
        assert ParseRow(company, rows[k + 1]) == Parsed(l);
      }
      if exists k :: 0 <= k < |rows| && ParseRow(company, rows[k]) == Parsed(l) {
        var k :| 0 <= k < |rows| && ParseRow(company, rows[k]) == Parsed(l);
        if k > 0 {
          assert ParseRow(company, tail[k - 1]) == Parsed(l);
        }
      }
    }
  }

  /** Every listing comes from a row with at least two cells and an anchor, and is built from that row alone. */
  lemma RowsToListingsOrigin(company: string, rows: seq<Row>, l: Listing)
    ensures l in RowsToListings(company, rows) ==>
      exists k :: && 0 <= k < |rows| && rows[k].cellCount >= 2 && rows[k].anchor.Some?
                  && l == ListingOf(company, rows[k].anchor.value, rows[k].locationText)
  {
    RowsToListingsMembers(company, rows, l);
  }

  /** The listings of all sources, page after page; a failed page contributes nothing. */
  function ScrapeAll(sources: seq<Source>): seq<Listing> {
    if sources == [] then []
    else match sources[0]
      case RenderFailed => ScrapeAll(sources[1..])
      case Rendered(company, rows) => RowsToListings(company, rows) + ScrapeAll(sources[1..])
  }

  /** A page that fails to render is skipped without disturbing the pages before or after it. */
  lemma {:induction false} FailedSourceIsSkipped(before: seq<Source>, after: seq<Source>)
    ensures ScrapeAll(before + [RenderFailed] + after) == ScrapeAll(before + after)
  {
    if before == [] {
      assert before + [RenderFailed] + after == [RenderFailed] + after;
      assert ([RenderFailed] + after)[1..] == after;
      assert before + after == after;
    } else {
      assert (before + [RenderFailed] + after)[1..] == before[1..] + [RenderFailed] + after;
      assert (before + after)[1..] == before[1..] + after;
      FailedSourceIsSkipped(before[1..], after);
    }
  }
}

=== FILE: listings.dfy ===
/** The job-listing record that flows through the four pipeline stages, and the JSON values it may carry. */
module Listings {
  import opened Results

  /** A JSON value as Python's `json.loads` returns it (numbers limited to integers). */
  datatype Json =
    | JNull
    | JBool(b: bool)
    | JNum(n: int)
    | JStr(s: string)
    | JArr(items: seq<Json>)
    | JObj(fields: map<string, Json>)

  /** Python's truth value of a decoded JSON value, as tested by `if obj["GPT"]`. */
  predicate Truthy(v: Json) {
    match v
    case JNull => false
    case JBool(b) => b
    case JNum(n) => n != 0
    case JStr(s) => s != ""
    case JArr(items) => items != []
    case JObj(fields) => fields != map[]
  }

  /**
   One job listing. Every stage passes the previous stage's records on, so the
   keys written at extraction are always present: `location` becomes `None`
   when the rule filter pops it, `link` is `None` when the anchor had no
   `href`, and `gpt` is `None` until the classifier stores its verdict.
   */
  datatype Listing = Listing(
    company: string,
    position: string,
    location: Option<string>,
    department: string,
    link: Option<string>,
    gpt: Option<Json>)
}

=== FILE: pipeline.dfy ===
/**
 The four stages run one after another, each on the whole output of the one
 before: scrape, keyword filter, judge, store.
 */
module Pipeline {
  import opened Results
  import opened Listings
  import opened Extract
  import opened RuleFilter
  import opened Classifier
  import opened Sync

  /** The listings that reach the store stage: scraped, kept by both keyword passes, judged a match. */
  function Candidates(sources: seq<Source>, kw: Keywords, replyTo: nat -> Option<string>, loads: string -> Option<Json>): seq<Listing>
  {
    GptFilter(FilterKeyWords(kw, ScrapeAll(sources)), replyTo, loads)
  }

  /** Every candidate is a scraped listing that passed both keyword passes, without its location, with a truthy verdict. */
  lemma CandidateOrigin(sources: seq<Source>, kw: Keywords, replyTo: nat -> Option<string>, loads: string -> Option<Json>, c: Listing)
    ensures c in Candidates(sources, kw, replyTo, loads) ==>
      && c.location.None? && c.gpt.Some? && Truthy(c.gpt.value)
      && exists l :: && l in ScrapeAll(sources)
                     && PassesPosition(kw, l) && PassesDepartment(kw, l)
                     && c == l.(location := None, gpt := c.gpt)
  {
    if c in Candidates(sources, kw, replyTo, loads) {
      var scraped := ScrapeAll(sources);
      var filtered := FilterKeyWords(kw, scraped);
      GptFilterMembers(filtered, replyTo, loads, c);
      var k :| 0 <= k < |filtered| && Verdict(replyTo(k), loads) && c == filtered[k].(gpt := Some(JBool(true)));
      FilterIsSurvivors(kw, scraped);
      SurvivorsMembers(kw, scraped, filtered[k]);
      var j :| 0 <= j < |scraped| && PassesPosition(kw, scraped[j]) && PassesDepartment(kw, scraped[j]) && filtered[k] == DropLocation(scraped[j]);
      assert c == scraped[j].(location := None, gpt := c.gpt);
    }
  }

  /**
   Every record a run prepares for the store has status "New" and the run's
   date, and carries the position, company, department and link of a scraped
   listing that passed both keyword passes and whose link was not yet stored.
   */
  lemma PlannedRecordOrigin(sources: seq<Source>, kw: Keywords, replyTo: nat -> Option<string>, loads: string -> Option<Json>,
                            existing: set<string>, date: string, w: StoreRecord)
    ensures w in PlanRecords(Candidates(sources, kw, replyTo, loads), existing, date) ==>
      && w.status == STATUS_VALUE && w.date == date
      && exists l :: && l in ScrapeAll(sources)
                     && PassesPosition(kw, l) && PassesDepartment(kw, l)
                     && (l.link.None? || l.link.value !in existing)
                     && w.url == l.link && w.location == l.department
                     && w.position == l.position && w.company == l.company
  {
    if w in PlanRecords(Candidates(sources, kw, replyTo, loads), existing, date) {
      var candidates := Candidates(sources, kw, replyTo, loads);
      var newOffers := NewOffers(candidates, existing);
      var records := PlanRecords(candidates, existing, date);
      var k :| 0 <= k < |records| && records[k] == w;
      var c := newOffers[k];
      assert c in newOffers;
      CandidateOrigin(sources, kw, replyTo, loads, c);
    }
  }

  /** The combined entry point: scrape, filter, judge, then store; the judge's replies and the store's answers are inputs. */
  method Run(sources: seq<Source>, kw: Keywords, replyTo: nat -> Option<string>, loads: string -> Option<Json>,
             storeReplies: seq<Reply>, date: string, statusOf: nat -> int) returns (r: Result<SyncRun, ReadError>)
    ensures r.Ok? <==> ReadSucceeds(storeReplies)
    ensures r.Ok? ==> exists n :: ReadStopsAt(storeReplies, n) && r.value.existing == UrlsUpTo(storeReplies, n)
    ensures r.Ok? ==> r.value.records == PlanRecords(Candidates(sources, kw, replyTo, loads), r.value.existing, date)
    ensures r.Ok? ==> r.value.written == AcceptedRecords(r.value.records, statusOf)
    ensures r.Ok? ==> forall w :: w in r.value.written ==>
      exists l :: && l in ScrapeAll(sources)
                  && PassesPosition(kw, l) && PassesDepartment(kw, l)
                  && (l.link.None? || l.link.value !in r.value.existing)
                  && w.url == l.link && w.status == STATUS_VALUE && w.date == date
  {
    var candidates := Candidates(sources, kw, replyTo, loads);
    r := AirtableAppend(candidates, storeReplies, date, statusOf);
    if r.Ok? {
      forall w | w in r.value.written
        ensures exists l :: && l in ScrapeAll(sources)
                            && PassesPosition(kw, l) && PassesDepartment(kw, l)
                            && (l.link.None? || l.link.value !in r.value.existing)
                            && w.url == l.link && w.status == STATUS_VALUE && w.date == date
      {
        PlannedRecordOrigin(sources, kw, replyTo, loads, r.value.existing, date, w);
      }
    }
  }
}

=== FILE: results.dfy ===
/** Optional values and success-or-error results used throughout the pipeline model. */
module Results {

  /** A value that may be absent: Python's `None` or a missing key. */
  datatype Option<+T> = None | Some(value: T)

  /** Either a computed value or the error that stopped the computation. */
  datatype Result<+T, +E> = Ok(value: T) | Err(error: E)
}

=== FILE: rule_filter.dfy ===
/**
 The keyword stage: drop listings whose position mentions a banned word, keep
 those whose department mentions a wanted word, then remove the location
 field from what is left. Both word lists are configuration.
 */
module RuleFilter {
  import opened Results
  import opened Text
  import opened Seqs
  import opened Listings

  /** The two word lists: banned words for the position, wanted words for the department. */
  datatype Keywords = Keywords(banned: seq<string>, keep: seq<string>)

  /** Some word of `words`, lowered, is a substring of `text`, lowered. */
  predicate MentionsAny(words: seq<string>, text: string) {
    exists k | 0 <= k < |words| :: Contains(Lower(text), Lower(words[k]))
  }

  /**
   The word scan shared by the banned-word test and the department test:
   words are tried in list order and the scan stops at the first hit.
   */
  method ScanWords(words: seq<string>, text: string) returns (found: bool)
    ensures found <==> exists k :: 0 <= k < |words| && Contains(Lower(text), Lower(words[k]))
  {
    var textLower := Lower(text);
    var i := 0;
    while i < |words|
      invariant 0 <= i <= |words|
      invariant forall k :: 0 <= k < i ==> !Contains(textLower, Lower(words[k]))
    {
      var hit := Find(textLower, Lower(words[i]));
      if hit {
        return true;
      }
      i := i + 1;
    }
    return false;
  }

  /** The test does not depend on the case of the text. */
  lemma MentionsAnyIgnoresCase(words: seq<string>, text: string)
    ensures MentionsAny(words, Lower(text)) == MentionsAny(words, text)
  {
    LowerIdempotent(text);
  }

  /** The test does not depend on the case of the words either. */
  lemma MentionsAnyIgnoresWordCase(words: seq<string>, text: string)
    ensures MentionsAny(seq(|words|, k requires 0 <= k < |words| => Lower(words[k])), text) == MentionsAny(words, text)
  {
    var lowered := seq(|words|, k requires 0 <= k < |words| => Lower(words[k]));
    forall k | 0 <= k < |words| ensures Lower(lowered[k]) == Lower(words[k]) {
      LowerIdempotent(words[k]);
    }
    if MentionsAny(lowered, text) {
      var k :| 0 <= k < |lowered| && Contains(Lower(text), Lower(lowered[k]));
      assert Contains(Lower(text), Lower(words[k]));
    }
    if MentionsAny(words, text) {
      var k :| 0 <= k < |words| && Contains(Lower(text), Lower(words[k]));
      assert Contains(Lower(text), Lower(lowered[k]));
    }
  }

  /** The exclusion pass keeps a listing whose position mentions no banned word. */
  predicate PassesPosition(kw: Keywords, r: Listing) {
    !MentionsAny(kw.banned, r.position)
  }

  /** The inclusion pass keeps a listing whose department mentions some wanted word. */
  predicate PassesDepartment(kw: Keywords, r: Listing) {
    MentionsAny(kw.keep, r.department)
  }

  /** The listing with its `location` key popped. */
  function DropLocation(r: Listing): Listing {
    r.(location := None)
  }

  /** Every listing with its `location` key popped, in order. */
  function DropLocations(rs: seq<Listing>): (out: seq<Listing>)
    ensures |out| == |rs|
    ensures forall k :: 0 <= k < |rs| ==> out[k] == DropLocation(rs[k])
  {
    if rs == [] then [] else [DropLocation(rs[0])] + DropLocations(rs[1..])
  }

  /** The whole keyword stage: exclusion pass on position, inclusion pass on department, then no location. */
  function FilterKeyWords(kw: Keywords, data: seq<Listing>): (out: seq<Listing>)
    ensures |out| <= |data|
    ensures forall r :: r in out ==> r.location.None? && PassesPosition(kw, r) && PassesDepartment(kw, r)
  {
    var filtered := Select(r => PassesPosition(kw, r), data);
    var filteredDept := Select(r => PassesDepartment(kw, r), filtered);
    assert forall k :: 0 <= k < |filteredDept| ==> filteredDept[k] in filteredDept;
    DropLocations(filteredDept)
  }

  /** A single-pass reference: each listing that passes both tests, with its location removed, in input order. */
  function Survivors(kw: Keywords, data: seq<Listing>): seq<Listing> {
    if data == [] then []
    else if PassesPosition(kw, data[0]) && PassesDepartment(kw, data[0])
    then [DropLocation(data[0])] + Survivors(kw, data[1..])
    else Survivors(kw, data[1..])
  }

  /** The two passes together equal the single-pass reference. */
  lemma {:induction false} FilterIsSurvivors(kw: Keywords, data: seq<Listing>)
    ensures FilterKeyWords(kw, data) == Survivors(kw, data)
  {
    if data != [] {
      FilterIsSurvivors(kw, data[1..]);
      var p := (r: Listing) => PassesPosition(kw, r);
      var q := (r: Listing) => PassesDepartment(kw, r);
      assert Select(p, data) == (if p(data[0]) then [data[0]] else []) + Select(p, data[1..]);
      if p(data[0]) {
        assert Select(p, data)[1..] == Select(p, data[1..]);
        assert Select(q, Select(p, data)) == (if q(data[0]) then [data[0]] else []) + Select(q, Select(p, data[1..]));
      }
    }
  }

  /** A listing leaves the stage exactly when it passes both tests; it leaves unchanged except for its location. */
  lemma {:induction false} SurvivorsMembers(kw: Keywords, data: seq<Listing>, r: Listing)
    ensures r in Survivors(kw, data) <==>
      exists k :: && 0 <= k < |data|
                  && PassesPosition(kw, data[k]) && PassesDepartment(kw, data[k])
                  && r == DropLocation(data[k])
  {
    if data != [] {
      var tail := data[1..];
      SurvivorsMembers(kw, tail, r);
      if r in Survivors(kw, tail) {
        var k :| 0 <= k < |tail| && PassesPosition(kw, tail[k]) && PassesDepartment(kw, tail[k]) && r == DropLocation(tail[k]);
        assert data[k + 1] == tail[k];
      }
      if exists k :: 0 <= k < |data| && PassesPosition(kw, data[k]) && PassesDepartment(kw, data[k]) && r == DropLocation(data[k]) {
        var k :| 0 <= k < |data| && PassesPosition(kw, data[k]) && PassesDepartment(kw, data[k]) && r == DropLocation(data[k]);
        if k > 0 {
          assert tail[k - 1] == data[k];
        }
      }
    }
  }

  /** The stage's output keeps input order: it is a subsequence of the input with locations removed. */
  lemma {:induction false} SurvivorsInOrder(kw: Keywords, data: seq<Listing>)
    ensures IsSubseq(Survivors(kw, data), DropLocations(data))
  {
    if data != [] {
      SurvivorsInOrder(kw, data[1..]);
      var out := Survivors(kw, data);
      var all := DropLocations(data);
      assert all[1..] == DropLocations(data[1..]);
      if PassesPosition(kw, data[0]) && PassesDepartment(kw, data[0]) {
        assert out[0] == all[0] && out[1..] == Survivors(kw, data[1..]);
      } else if out != [] {
        assert IsSubseq(out, all[1..]);
      }
    }
  }

  /** Running the stage again on its own output changes nothing. */
  lemma FilterIdempotent(kw: Keywords, data: seq<Listing>)
    ensures FilterKeyWords(kw, FilterKeyWords(kw, data)) == FilterKeyWords(kw, data)
  {
    var once := FilterKeyWords(kw, data);
    FilterIsSurvivors(kw, once);
    SurvivorsOfSurvivors(kw, once);
  }

  /** On listings that all pass both tests and have no location, the reference keeps everything. */
  lemma {:induction false} SurvivorsOfSurvivors(kw: Keywords, rs: seq<Listing>)
    requires forall r :: r in rs ==> r.location.None? && PassesPosition(kw, r) && PassesDepartment(kw, r)
    ensures Survivors(kw, rs) == rs
  {
    if rs != [] {
      assert rs[0] in rs;
      assert forall r :: r in rs[1..] ==> r in rs;
      SurvivorsOfSurvivors(kw, rs[1..]);
    }
  }

  /** Running the inclusion pass before the exclusion pass selects the same listings. */
  lemma PassOrderIrrelevant(kw: Keywords, data: seq<Listing>)
    ensures Select((r: Listing) => PassesDepartment(kw, r), Select((r: Listing) => PassesPosition(kw, r), data))
         == Select((r: Listing) => PassesPosition(kw, r), Select((r: Listing) => PassesDepartment(kw, r), data))
  {
    SelectCommutes((r: Listing) => PassesDepartment(kw, r), (r: Listing) => PassesPosition(kw, r), data);
  }

  /** The exception the keyword stage raises as written: an undefined name. */
  datatype FilterError = NameError(name: string)

  /**
   The keyword stage as its text stands: the exclusion pass calls
   `contains_banned_word`, which is not defined, so any non-empty input raises
   there; on an empty input the comprehension calls nothing and the loop that
   follows reads `filtrados`, which is not defined either.
   */
  function FilterKeyWordsAsWritten(kw: Keywords, data: seq<Listing>): (r: Result<seq<Listing>, FilterError>)
  {
    if data != [] then Err(NameError("contains_banned_word")) else Err(NameError("filtrados"))
  }

  /**
   A concrete input that shows the gap: with no banned words and the empty
   wanted word, the intended stage keeps the one listing, while the stage as
   written raises before producing anything.
   */
  lemma AsWrittenLosesListing(l: Listing)
    ensures FilterKeyWords(Keywords([], [""]), [l]) == [DropLocation(l)]
    ensures FilterKeyWordsAsWritten(Keywords([], [""]), [l]) == Err(NameError("contains_banned_word"))
  {
    var kw := Keywords([], [""]);
    assert Lower("") == "";
    assert OccursAt(Lower(l.department), Lower(kw.keep[0]), 0);
    assert PassesDepartment(kw, l);
    FilterIsSurvivors(kw, [l]);
    assert [l][1..] == [];
  }
}

=== FILE: seqs.dfy ===
/** Order-preserving selection, subsequences and concatenation of sequences. */
module Seqs {

  /** `xs` is `ys` with some elements removed and the rest kept in order. */
  ghost predicate IsSubseq<T>(xs: seq<T>, ys: seq<T>)
    decreases |ys|
  {
    || xs == []
    || (ys != [] && ((xs[0] == ys[0] && IsSubseq(xs[1..], ys[1..])) || IsSubseq(xs, ys[1..])))
  }

  /** The elements of `xs` that satisfy `p`, in their original order: a Python list comprehension with an `if`. */
  function Select<T>(p: T -> bool, xs: seq<T>): (r: seq<T>)
    ensures |r| <= |xs|
    ensures forall x :: x in r ==> x in xs && p(x)
    ensures forall k :: 0 <= k < |xs| && p(xs[k]) ==> xs[k] in r
  {
    if xs == [] then []
    else if p(xs[0]) then [xs[0]] + Select(p, xs[1..])
    else Select(p, xs[1..])
  }

  /** The index of the first element of `xs` that satisfies `p`, or `|xs|` when none does. */
  function FirstWhere<T>(p: T -> bool, xs: seq<T>): (k: nat)
    ensures k <= |xs|
    ensures k < |xs| ==> p(xs[k])
    ensures forall j :: 0 <= j < k ==> !p(xs[j])
  {
    if xs == [] then 0
    else if p(xs[0]) then 0
    else
      assert forall j :: 1 <= j < |xs| ==> xs[j] == xs[1..][j - 1];
      1 + FirstWhere(p, xs[1..])
  }

  /** Selection keeps the order of what it keeps. */
  lemma {:induction false} SelectIsSubseq<T>(p: T -> bool, xs: seq<T>)
    ensures IsSubseq(Select(p, xs), xs)
  {
    if xs != [] {
      SelectIsSubseq(p, xs[1..]);
      var r := Select(p, xs);
      if p(xs[0]) {
        assert r[0] == xs[0] && r[1..] == Select(p, xs[1..]);
      } else if r != [] {
        assert IsSubseq(r, xs[1..]);
      }
    }
  }

  /** Selection keeps every occurrence of an element that satisfies `p`, and none of the others. */
  lemma {:induction false} SelectMultiset<T>(p: T -> bool, xs: seq<T>, x: T)
    ensures multiset(Select(p, xs))[x] == if p(x) then multiset(xs)[x] else 0
  {
    if xs != [] {
      SelectMultiset(p, xs[1..], x);
      assert xs == [xs[0]] + xs[1..];
    }
  }

  /** Selecting with a predicate every element already satisfies returns the sequence unchanged. */
  lemma {:induction false} SelectAll<T>(p: T -> bool, xs: seq<T>)
    requires forall k :: 0 <= k < |xs| ==> p(xs[k])
    ensures Select(p, xs) == xs
  {
    if xs != [] {
      SelectAll(p, xs[1..]);
    }
  }

  /** Selecting with a predicate no element satisfies returns nothing. */
  lemma {:induction false} SelectNone<T>(p: T -> bool, xs: seq<T>)
    requires forall k :: 0 <= k < |xs| ==> !p(xs[k])
    ensures Select(p, xs) == []
  {
    if xs != [] {
      SelectNone(p, xs[1..]);
    }
  }

  /** Two selections give the same result in either order. */
  lemma {:induction false} SelectCommutes<T>(p: T -> bool, q: T -> bool, xs: seq<T>)
    ensures Select(p, Select(q, xs)) == Select(q, Select(p, xs))
  {
    if xs != [] {
      SelectCommutes(p, q, xs[1..]);
    }
  }

  /** The concatenation of a sequence of sequences, in order. */
  function Flatten<T>(xss: seq<seq<T>>): (r: seq<T>)
  {
    if xss == [] then [] else xss[0] + Flatten(xss[1..])
  }

  /** Flattening distributes over concatenation. */
  lemma {:induction false} FlattenAppend<T>(xss: seq<seq<T>>, yss: seq<seq<T>>)
    ensures Flatten(xss + yss) == Flatten(xss) + Flatten(yss)
  {
    if xss == [] {
      assert xss + yss == yss;
    } else {
      assert (xss + yss)[1..] == xss[1..] + yss;
      FlattenAppend(xss[1..], yss);
    }
  }

  /** Every element of a part is an element of the flattened sequence. */
  lemma {:induction false} InFlattenPart<T>(xss: seq<seq<T>>, k: nat, x: T)
    requires k < |xss| && x in xss[k]
    ensures x in Flatten(xss)
  {
    if k > 0 {
      InFlattenPart(xss[1..], k - 1, x);
    }
  }
}

=== FILE: sync.dfy ===
/**
 The store stage: collect the URLs already in the store page by page, keep the
 offers whose link is not among them, turn each into a store record, and write
 the records in batches of at most ten. The HTTP exchanges are inputs: the
 replies to the page reads, in order, and the status code of each batch write.
 */
module Sync {
  import opened Results
  import opened Seqs
  import opened Listings

  /** The most records the store accepts in one write request. */
  const BATCH_SIZE: nat := 10

  /** The status every new store record is given. */
  const STATUS_VALUE := "New"

  /** One page of the store's listing: the `URL` field of each record, and the cursor to the next page if any. */
  datatype Page = Page(urls: seq<Option<string>>, offset: Option<string>)

  /** The reply to one page read: its HTTP status and the decoded page. */
  datatype Reply = Reply(status: int, page: Page)

  /** Why collecting the existing URLs stopped without a result. */
  datatype ReadError =
    | ReadFailed(status: int)   // a page read answered 4xx or 5xx; the exception ends the stage
    | CursorNeverEnds           // every reply given still pointed to a further page

  /** One store record, with the fields the store's table defines. */
  datatype StoreRecord = StoreRecord(
    position: string,
    company: string,
    location: string,
    url: Option<string>,
    status: string,
    date: string)

  /** The log line of one batch write: its 1-based number and either the count inserted or the error status. */
  datatype BatchReport = Inserted(number: nat, count: nat) | Failed(number: nat, status: int)

  /** The outcome of a whole store stage run. */
  datatype SyncRun = SyncRun(
    existing: set<string>,
    records: seq<StoreRecord>,
    log: seq<BatchReport>,
    written: seq<StoreRecord>)

  /** `raise_for_status` raises for the client and server error ranges. */
  predicate RaisesForStatus(status: int) {
    400 <= status < 600
  }

  /** A page leads to another only when its cursor is present and non-empty. */
  predicate HasNextPage(p: Page) {
    p.offset.Some? && p.offset.value != ""
  }

  /** The URLs a page contributes: those records whose `URL` is present and non-empty. */
  function PageUrls(p: Page): (urls: set<string>)
    ensures "" !in urls
    ensures forall k :: 0 <= k < |p.urls| && p.urls[k].Some? && p.urls[k].value != "" ==> p.urls[k].value in urls
    ensures forall u :: u in urls ==> exists k :: 0 <= k < |p.urls| && p.urls[k] == Some(u)
  {
    set k | 0 <= k < |p.urls| && p.urls[k].Some? && p.urls[k].value != "" :: p.urls[k].value
  }

  /** The union of the URLs of the first `n` pages. */
  function UrlsUpTo(replies: seq<Reply>, n: nat): set<string>
    requires n <= |replies|
  {
    if n == 0 then {} else UrlsUpTo(replies, n - 1) + PageUrls(replies[n - 1].page)
  }

  /** A URL is collected exactly when some record of an earlier page carries it, non-empty. */
  lemma {:induction false} UrlsUpToMembers(replies: seq<Reply>, n: nat, u: string)
    requires n <= |replies|
    ensures u in UrlsUpTo(replies, n) <==>
      u != "" && exists k, j :: 0 <= k < n && 0 <= j < |replies[k].page.urls| && replies[k].page.urls[j] == Some(u)
  {
    if n > 0 {
      UrlsUpToMembers(replies, n - 1, u);
      var p := replies[n - 1].page;
      if u != "" && exists j :: 0 <= j < |p.urls| && p.urls[j] == Some(u) {
        var j :| 0 <= j < |p.urls| && p.urls[j] == Some(u);
        assert u in PageUrls(p);
      }
    }
  }

  /**
   The existing-URL collection: page after page, following each page's cursor,
   until a page comes without one. A failing read ends it with an error, so the
   stage never deduplicates against a partial set. `fetched` is the number of
   pages read and `cursors[k]` the cursor sent with the k-th read.
   */
  method GetExistingUrls(replies: seq<Reply>) returns (r: Result<set<string>, ReadError>, fetched: nat, cursors: seq<Option<string>>)
    ensures fetched <= |replies| && |cursors| == fetched
    ensures fetched > 0 ==> cursors[0] == None
    ensures forall k :: 0 < k < fetched ==> cursors[k] == replies[k - 1].page.offset
    ensures forall k :: 0 <= k < fetched - 1 ==> !RaisesForStatus(replies[k].status) && HasNextPage(replies[k].page)
    ensures r.Ok? <==> fetched > 0 && !RaisesForStatus(replies[fetched - 1].status) && !HasNextPage(replies[fetched - 1].page)
    ensures r.Ok? ==> r.value == UrlsUpTo(replies, fetched)
    ensures r.Err? && r.error.ReadFailed? ==> fetched > 0 && r.error.status == replies[fetched - 1].status && RaisesForStatus(r.error.status)
    ensures r == Err(CursorNeverEnds) ==>
      && fetched == |replies|
      && (fetched == 0 || (HasNextPage(replies[fetched - 1].page) && !RaisesForStatus(replies[fetched - 1].status)))
  {
    var existing: set<string> := {};
    var offset: Option<string> := None;
    fetched := 0;
    cursors := [];
    while true
      invariant fetched <= |replies| && |cursors| == fetched
      invariant existing == UrlsUpTo(replies, fetched)
      invariant fetched > 0 ==> cursors[0] == None
      invariant forall k :: 0 < k < fetched ==> cursors[k] == replies[k - 1].page.offset
      invariant forall k :: 0 <= k < fetched ==> !RaisesForStatus(replies[k].status) && HasNextPage(replies[k].page)
      invariant offset == if fetched == 0 then None else replies[fetched - 1].page.offset
      decreases |replies| - fetched
    {
      if fetched == |replies| {
        return Err(CursorNeverEnds), fetched, cursors;
      }
      var reply := replies[fetched];
      cursors := cursors + [offset];
      fetched := fetched + 1;
      if RaisesForStatus(reply.status) {
        return Err(ReadFailed(reply.status)), fetched, cursors;
      }
      existing := existing + PageUrls(reply.page);
      offset := reply.page.offset;
      if !HasNextPage(reply.page) {
        return Ok(existing), fetched, cursors;
      }
    }
  }

  /**
   Reading the existing URLs succeeds by stopping at page `n`: the first `n`
   pages answer without an error status, each before the last points to a
   further page, and the last does not.
   */
  predicate ReadStopsAt(replies: seq<Reply>, n: nat) {
    && 0 < n <= |replies|
    && (forall k :: 0 <= k < n ==> !RaisesForStatus(replies[k].status))
    && (forall k :: 0 <= k < n - 1 ==> HasNextPage(replies[k].page))
    && !HasNextPage(replies[n - 1].page)
  }

  /** The replies let the existing-URL read finish without an error. */
  predicate ReadSucceeds(replies: seq<Reply>) {
    exists n | 0 < n <= |replies| :: ReadStopsAt(replies, n)
  }

  /** An offer is new unless its link is already in the store; an offer without a link is always new. */
  predicate IsNew(o: Listing, existing: set<string>) {
    o.link.None? || o.link.value !in existing
  }

  /** The offers to insert, in input order. */
  function NewOffers(offers: seq<Listing>, existing: set<string>): (newOffers: seq<Listing>)
    ensures forall o :: o in newOffers ==> o in offers && (o.link.None? || o.link.value !in existing)
    ensures forall k :: 0 <= k < |offers| && (offers[k].link.None? || offers[k].link.value !in existing) ==> offers[k] in newOffers
    ensures IsSubseq(newOffers, offers)
    ensures forall o :: multiset(newOffers)[o] == if IsNew(o, existing) then multiset(offers)[o] else 0
  {
    SelectIsSubseq(o => IsNew(o, existing), offers);
    forall o ensures multiset(Select(o => IsNew(o, existing), offers))[o] == if IsNew(o, existing) then multiset(offers)[o] else 0 {
      SelectMultiset(o => IsNew(o, existing), offers, o);
    }
    Select(o => IsNew(o, existing), offers)
  }

  /** The store record of one offer. */
  function BuildRecord(o: Listing, date: string): StoreRecord {
    StoreRecord(o.position, o.company, o.department, o.link, STATUS_VALUE, date)
  }

  /** The store records of the offers, in order, all stamped with the run's one date. */
  function BuildRecords(offers: seq<Listing>, date: string): (records: seq<StoreRecord>)
    ensures |records| == |offers|
    ensures forall k :: 0 <= k < |offers| ==>
      && records[k].status == STATUS_VALUE
      && records[k].date == date
      && records[k].url == offers[k].link
      && records[k].location == offers[k].department
      && records[k].position == offers[k].position
      && records[k].company == offers[k].company
  {
    if offers == [] then [] else [BuildRecord(offers[0], date)] + BuildRecords(offers[1..], date)
  }

  /** Consecutive slices of `xs` of `BATCH_SIZE` elements, the last one possibly shorter. */
  function Chunk<T>(xs: seq<T>): (batches: seq<seq<T>>)
    ensures Flatten(batches) == xs
    ensures |batches| == (|xs| + BATCH_SIZE - 1) / BATCH_SIZE
    ensures forall k :: 0 <= k < |batches| ==> 0 < |batches[k]| <= BATCH_SIZE
    ensures forall k :: 0 <= k < |batches| - 1 ==> |batches[k]| == BATCH_SIZE
    decreases |xs|
  {
    if xs == [] then []
    else if |xs| <= BATCH_SIZE then [xs]
    else
      assert xs == xs[..BATCH_SIZE] + xs[BATCH_SIZE..];
      [xs[..BATCH_SIZE]] + Chunk(xs[BATCH_SIZE..])
  }

  /** Python's `xs[i:i + BATCH_SIZE]`: at most `BATCH_SIZE` elements from index `i`, cut short at the end. */
  function PySlice<T>(xs: seq<T>, i: nat): seq<T>
    requires i <= |xs|
  {
    xs[i .. if i + BATCH_SIZE <= |xs| then i + BATCH_SIZE else |xs|]
  }

  /** The k-th batch is the slice starting at `k * BATCH_SIZE`, as Python's `range(0, len(records), BATCH_SIZE)` steps through the records. */
  lemma {:induction false} ChunkAt<T>(xs: seq<T>, k: nat)
    requires k < |Chunk(xs)|
    ensures k * BATCH_SIZE < |xs|
    ensures Chunk(xs)[k] == PySlice(xs, k * BATCH_SIZE)
    decreases k
  {
    if k > 0 {
      ChunkAt(xs[BATCH_SIZE..], k - 1);
    }
  }

  /** The batch the write loop sends at index `k`: `records[i:i + BATCH_SIZE]` with `i = k * BATCH_SIZE`. */
  function BatchAt(records: seq<StoreRecord>, k: nat): (batch: seq<StoreRecord>)
    requires k < |Chunk(records)|
    ensures batch == Chunk(records)[k]
  {
    ChunkAt(records, k);
    PySlice(records, k * BATCH_SIZE)
  }

  /** The records the store accepted: those of the first `n` batches whose write answered below 400. */
  function WrittenUpTo(batches: seq<seq<StoreRecord>>, statusOf: nat -> int, n: nat): seq<StoreRecord>
    requires n <= |batches|
  {
    if n == 0 then []
    else WrittenUpTo(batches, statusOf, n - 1) + (if statusOf(n - 1) >= 400 then [] else batches[n - 1])
  }

  /** The log line for the batch at index `k`. */
  function ReportFor(batch: seq<StoreRecord>, statusOf: nat -> int, k: nat): (r: BatchReport)
    ensures r.number == k + 1
    ensures r.Failed? <==> statusOf(k) >= 400
  {
    if statusOf(k) >= 400 then Failed(k + 1, statusOf(k)) else Inserted(k + 1, |batch|)
  }

  /**
   The batch writes: the records are cut every `BATCH_SIZE` and every batch is
   sent, whatever became of the batches before it. `statusOf(k)` is the HTTP
   status of the write of the batch at index `k`.
   */
  method WriteBatches(records: seq<StoreRecord>, statusOf: nat -> int) returns (log: seq<BatchReport>, written: seq<StoreRecord>)
    ensures |log| == (|records| + BATCH_SIZE - 1) / BATCH_SIZE
    ensures forall k :: 0 <= k < |log| ==> log[k] == ReportFor(Chunk(records)[k], statusOf, k)
    ensures written == WrittenUpTo(Chunk(records), statusOf, |log|)
  {
    var batches := Chunk(records);
    var count := |batches|;
    assert count == (|records| + BATCH_SIZE - 1) / BATCH_SIZE;
    log := [];
    written := [];
    var b := 0;
    while b < count
      invariant b <= count
      invariant log == ReportsUpTo(batches, statusOf, b)
      invariant written == WrittenUpTo(batches, statusOf, b)
    {
      var batch := BatchAt(records, b);
      var status := statusOf(b);
      if status >= 400 {
        log := log + [Failed(b + 1, status)];
      } else {
        log := log + [Inserted(b + 1, |batch|)];
        written := written + batch;
      }
      b := b + 1;
    }
    assert b == count;
    ReportsUpToAt(batches, statusOf, b);
  }

  /** The log lines of the first `n` batches. */
  function ReportsUpTo(batches: seq<seq<StoreRecord>>, statusOf: nat -> int, n: nat): seq<BatchReport>
    requires n <= |batches|
  {
    if n == 0 then [] else ReportsUpTo(batches, statusOf, n - 1) + [ReportFor(batches[n - 1], statusOf, n - 1)]
  }

  /** The log of the first `n` batches holds one line per batch, in batch order. */
  lemma {:induction false} ReportsUpToAt(batches: seq<seq<StoreRecord>>, statusOf: nat -> int, n: nat)
    requires n <= |batches|
    ensures |ReportsUpTo(batches, statusOf, n)| == n
    ensures forall k :: 0 <= k < n ==> ReportsUpTo(batches, statusOf, n)[k] == ReportFor(batches[k], statusOf, k)
  {
    if n > 0 {
      ReportsUpToAt(batches, statusOf, n - 1);
    }
  }

  /** When every write is accepted, the store receives all records, in order. */
  lemma {:induction false} AllAcceptedWritesAll(batches: seq<seq<StoreRecord>>, statusOf: nat -> int, n: nat)
    requires n <= |batches|
    requires forall k :: 0 <= k < n ==> statusOf(k) < 400
    ensures WrittenUpTo(batches, statusOf, n) == Flatten(batches[..n])
  {
    if n > 0 {
      AllAcceptedWritesAll(batches, statusOf, n - 1);
      assert batches[..n] == batches[..n - 1] + [batches[n - 1]];
      FlattenAppend(batches[..n - 1], [batches[n - 1]]);
    }
  }

  /** A write that every batch survives stores exactly the records prepared. */
  lemma AllAcceptedStoresRecords(records: seq<StoreRecord>, statusOf: nat -> int)
    requires forall k :: 0 <= k < |Chunk(records)| ==> statusOf(k) < 400
    ensures WrittenUpTo(Chunk(records), statusOf, |Chunk(records)|) == records
  {
    var batches := Chunk(records);
    AllAcceptedWritesAll(batches, statusOf, |batches|);
    assert batches[..|batches|] == batches;
  }

  /** The records a run prepares: one per new offer, in input order. */
  function PlanRecords(offers: seq<Listing>, existing: set<string>, date: string): seq<StoreRecord> {
    BuildRecords(NewOffers(offers, existing), date)
  }

  /** No prepared record carries a URL that is already in the store. */
  lemma PlanSkipsExisting(offers: seq<Listing>, existing: set<string>, date: string)
    ensures forall w :: w in PlanRecords(offers, existing, date) ==> w.url.None? || w.url.value !in existing
  {
  }

  /** The whole store stage; a failed read of the existing URLs aborts it before anything is written. */
  method AirtableAppend(offers: seq<Listing>, replies: seq<Reply>, date: string, statusOf: nat -> int) returns (r: Result<SyncRun, ReadError>)
    ensures r.Ok? <==> ReadSucceeds(replies)
    ensures r.Ok? ==> r.value.records == PlanRecords(offers, r.value.existing, date)
    ensures r.Ok? ==> r.value.written == AcceptedRecords(r.value.records, statusOf)
    ensures r.Ok? ==> forall w :: w in r.value.written ==> w in r.value.records
    ensures r.Ok? ==> forall w :: w in r.value.written ==> w.url.None? || w.url.value !in r.value.existing
    ensures r.Ok? ==> |r.value.log| == (|r.value.records| + BATCH_SIZE - 1) / BATCH_SIZE
    ensures r.Ok? ==> forall k :: 0 <= k < |r.value.log| ==> r.value.log[k] == ReportFor(Chunk(r.value.records)[k], statusOf, k)
    ensures r.Ok? ==> forall k :: 0 <= k < |r.value.log| ==> r.value.log[k].number == k + 1
    ensures r.Ok? ==> "" !in r.value.existing
    ensures r.Ok? ==> exists n :: ReadStopsAt(replies, n) && r.value.existing == UrlsUpTo(replies, n)
    ensures r.Ok? && (forall k :: 0 <= k < |r.value.log| ==> r.value.log[k].Inserted?) ==> r.value.written == r.value.records
  {
    var read, fetched, cursors := GetExistingUrls(replies);
    if read.Err? {
      NoStopBefore(replies, fetched);
      return Err(read.error);
    }
    assert ReadStopsAt(replies, fetched);
    var existing := read.value;
    NoEmptyUrl(replies, fetched);
    var records := PlanRecords(offers, existing, date);
    var log, written := WriteBatches(records, statusOf);
    PlanSkipsExisting(offers, existing, date);
    WrittenAreRecords(Chunk(records), statusOf, |log|);
    if forall k :: 0 <= k < |log| ==> log[k].Inserted? {
      forall k | 0 <= k < |Chunk(records)| ensures statusOf(k) < 400 {
        assert log[k] == ReportFor(Chunk(records)[k], statusOf, k);
      }
      AllAcceptedStoresRecords(records, statusOf);
    }
    return Ok(SyncRun(existing, records, log, written));
  }

  /**
   A read that ended without a result had no page to stop at: every page before
   the last one read pointed further, the last one read raised or pointed
   further too, and the read ended early only on a raising page.
   */
  lemma NoStopBefore(replies: seq<Reply>, fetched: nat)
    requires fetched <= |replies|
    requires forall k :: 0 <= k < fetched - 1 ==> HasNextPage(replies[k].page)
    requires fetched > 0 ==> RaisesForStatus(replies[fetched - 1].status) || HasNextPage(replies[fetched - 1].page)
    requires fetched < |replies| ==> fetched > 0 && RaisesForStatus(replies[fetched - 1].status)
    ensures !ReadSucceeds(replies)
  {
    forall n | 0 < n <= |replies| ensures !ReadStopsAt(replies, n) {
      if n < fetched {
        assert HasNextPage(replies[n - 1].page);
      }
    }
  }

  /** The collected set never holds the empty URL. */
  lemma {:induction false} NoEmptyUrl(replies: seq<Reply>, n: nat)
    requires n <= |replies|
    ensures "" !in UrlsUpTo(replies, n)
  {
    if n > 0 {
      NoEmptyUrl(replies, n - 1);
    }
  }

  /** Whatever the store accepted belongs to one of the batches sent. */
  lemma {:induction false} WrittenAreRecords(batches: seq<seq<StoreRecord>>, statusOf: nat -> int, n: nat)
    requires n <= |batches|
    ensures forall w :: w in WrittenUpTo(batches, statusOf, n) ==> w in Flatten(batches)
  {
    if n > 0 {
      WrittenAreRecords(batches, statusOf, n - 1);
      forall w | w in batches[n - 1] ensures w in Flatten(batches) {
        InFlattenPart(batches, n - 1, w);
      }
    }
  }

  /** The URLs a sequence of records puts into the store's `URL` field, as the page reads later report them. */
  function StoredUrls(records: seq<StoreRecord>): set<string> {
    set k | 0 <= k < |records| && records[k].url.Some? && records[k].url.value != "" :: records[k].url.value
  }

  /**
   The records the store holds after the batch writes: those of the accepted
   batches, as `WriteBatches` reports them.
   */
  function AcceptedRecords(records: seq<StoreRecord>, statusOf: nat -> int): seq<StoreRecord> {
    WrittenUpTo(Chunk(records), statusOf, |Chunk(records)|)
  }

  /**
   Running the stage again against the store as the first run left it finds
   only offers that were new the first time and whose records the store did
   not accept, provided every offer carries a non-empty link.
   */
  lemma RerunRetriesRejected(offers: seq<Listing>, existing: set<string>, date: string, statusOf: nat -> int, o: Listing)
    requires forall k :: 0 <= k < |offers| ==> offers[k].link.Some? && offers[k].link.value != ""
    ensures var written := AcceptedRecords(PlanRecords(offers, existing, date), statusOf);
      o in NewOffers(offers, existing + StoredUrls(written)) ==>
        o in NewOffers(offers, existing) && BuildRecord(o, date) !in written
  {
  }

  /**
   When every batch of the first run was accepted, running the stage again
   against the store as that run left it adds nothing, provided every offer
   carries a non-empty link.
   */
  lemma RerunAddsNothing(offers: seq<Listing>, existing: set<string>, date: string, statusOf: nat -> int)
    requires forall k :: 0 <= k < |offers| ==> offers[k].link.Some? && offers[k].link.value != ""
    requires forall k :: 0 <= k < |Chunk(PlanRecords(offers, existing, date))| ==> statusOf(k) < 400
    ensures NewOffers(offers, existing + StoredUrls(AcceptedRecords(PlanRecords(offers, existing, date), statusOf))) == []
  {
    var newOffers := NewOffers(offers, existing);
    var records := PlanRecords(offers, existing, date);
    AllAcceptedStoresRecords(records, statusOf);
    var after := existing + StoredUrls(records);
    forall k | 0 <= k < |offers| ensures !IsNew(offers[k], after) {
      var link := offers[k].link.value;
      if link !in existing {
        assert offers[k] in newOffers;
        var j :| 0 <= j < |newOffers| && newOffers[j] == offers[k];
        assert records[j].url == Some(link);
        assert link in StoredUrls(records);
      }
    }
    SelectNone(o => IsNew(o, after), offers);
  }

  /** An offer without a link, or with an empty one, is never recognised as stored, so every run writes it again. */
  lemma LinklessOfferIsAlwaysNew(o: Listing, existing: set<string>, written: seq<StoreRecord>)
    requires o.link == None || o.link == Some("")
    requires "" !in existing
    ensures NewOffers([o], existing) == [o]
    ensures NewOffers([o], existing + StoredUrls(written)) == [o]
  {
  }
}

=== FILE: text.dfy ===
/**
 The three string operations the pipeline relies on, in Python's terms:
 `str.strip()`, `str.lower()` and the substring test `needle in hay`.
 */
module Text {

  /** The characters Python's `str.isspace()` accepts; `str.strip()` removes them from both ends. */
  predicate IsSpace(c: char) {
    || ('\t' <= c <= '\r')
    || ('\U{1C}' <= c <= '\U{1F}')
    || c == ' '
    || c == '\U{85}'
    || c == '\U{A0}'
    || c == '\U{1680}'
    || ('\U{2000}' <= c <= '\U{200A}')
    || c == '\U{2028}'
    || c == '\U{2029}'
    || c == '\U{202F}'
    || c == '\U{205F}'
    || c == '\U{3000}'
  }

  /** `s` with its leading whitespace removed. */
  function TrimStart(s: string): (r: string)
    ensures |r| <= |s| && r == s[|s| - |r|..]
    ensures forall k :: 0 <= k < |s| - |r| ==> IsSpace(s[k])
    ensures r == [] || !IsSpace(r[0])
  {
    if |s| > 0 && IsSpace(s[0]) then TrimStart(s[1..]) else s
  }

  /** `s` with its trailing whitespace removed. */
  function TrimEnd(s: string): (r: string)
    ensures |r| <= |s| && r == s[..|r|]
    ensures forall k :: |r| <= k < |s| ==> IsSpace(s[k])
    ensures r == [] || !IsSpace(r[|r| - 1])
  {
    if |s| > 0 && IsSpace(s[|s| - 1]) then TrimEnd(s[..|s| - 1]) else s
  }

  /**
   Python's `s.strip()`: the slice `s[i..j]` that remains once every leading
   and every trailing whitespace character is gone.
   */
  function Strip(s: string): (r: string)
    ensures |r| <= |s|
    ensures r == [] || (!IsSpace(r[0]) && !IsSpace(r[|r| - 1]))
    ensures Contains(s, r)
  {
    StripSlice(s);
    TrimEnd(TrimStart(s))
  }

  /** `Strip` removes only whitespace: everything before and after the kept slice is whitespace. */
  lemma StripRemovesOnlySpace(s: string)
    ensures exists i :: && OccursAt(s, Strip(s), i)
                        && (forall k :: 0 <= k < i ==> IsSpace(s[k]))
                        && (forall k :: i + |Strip(s)| <= k < |s| ==> IsSpace(s[k]))
  {
    var t := TrimStart(s);
    var i := |s| - |t|;
    StripSlice(s);
    forall k | i + |Strip(s)| <= k < |s|
      ensures IsSpace(s[k])
    {
      assert s[k] == t[k - i];
    }
    assert Strip(s) == TrimEnd(t);
    assert OccursAt(s, Strip(s), i);
  }

  /** What is left after both trims is a slice of `s`, starting where the leading whitespace ends. */
  lemma StripSlice(s: string)
    ensures OccursAt(s, TrimEnd(TrimStart(s)), |s| - |TrimStart(s)|)
  {
    var t := TrimStart(s);
    var r := TrimEnd(t);
    var i := |s| - |t|;
    assert s[i..i + |r|] == t[..|r|];
  }

  /** Stripping a stripped string changes nothing. */
  lemma StripIdempotent(s: string)
    ensures Strip(Strip(s)) == Strip(s)
  {
  }

  /** Python's `c.lower()` on one character, for the ASCII letters. */
  function LowerChar(c: char): char {
    if 'A' <= c <= 'Z' then (c as int + 32) as char else c
  }

  /** Python's `s.lower()`, character by character. */
  function Lower(s: string): (r: string)
    ensures |r| == |s|
    ensures forall k :: 0 <= k < |s| ==> r[k] == LowerChar(s[k])
    ensures forall k :: 0 <= k < |r| ==> !('A' <= r[k] <= 'Z')
  {
    if s == [] then [] else [LowerChar(s[0])] + Lower(s[1..])
  }

  /** Lowering an already lowered string changes nothing. */
  lemma LowerIdempotent(s: string)
    ensures Lower(Lower(s)) == Lower(s)
  {
  }

  /** `needle` occurs in `hay` starting at index `i`. */
  predicate OccursAt(hay: string, needle: string, i: int) {
    0 <= i && i + |needle| <= |hay| && hay[i..i + |needle|] == needle
  }

  /** Python's substring test `needle in hay`; the empty needle occurs everywhere. */
  predicate Contains(hay: string, needle: string) {
    exists i | 0 <= i <= |hay| :: OccursAt(hay, needle, i)
  }

  /** Python's `needle in hay` as a left-to-right scan, which finds an occurrence exactly when `Contains` holds. */
  method Find(hay: string, needle: string) returns (found: bool)
    ensures found <==> Contains(hay, needle)
  {
    var i := 0;
    while i + |needle| <= |hay|
      invariant 0 <= i
      invariant i <= |hay| + 1
      invariant forall j :: 0 <= j < i ==> !OccursAt(hay, needle, j)
    {
      if hay[i..i + |needle|] == needle {
        assert OccursAt(hay, needle, i);
        return true;
      }
      i := i + 1;
    }
    return false;
  }
}
